=== FILE: README.md ===
# Image derivatives and short links — a verified Dafny model

This project models the two pieces of logic in the image-upload backend:

- **`generateResizedImages`** (backend/imageProcessor.js). For each width of
  the fixed list `[100, 300, 600]`, in order, it resizes and re-encodes the
  upload. The format is WebP when the upload's MIME string contains
  `image/webp` and JPEG otherwise. It then writes the result to the S3 bucket
  under `fileName.replace('.', '-{w}px.')` and records
  `https://{bucket}.s3.amazonaws.com/{key}` under the label `{w}px`. The first
  rejected step ends the run.
- **`createShortUrl` / `getOriginalUrl`** (backend/urlShortener.js). The
  first puts `shortId → originalUrl` into a DynamoDB table with no condition
  and returns `https://your-api.com/short/{shortId}`. The second reads the id
  back, or rejects with "Short URL not found". Either rejects when its
  DynamoDB request does.

Files, one module each:

- `wrappers.dfy` (`Wrappers`): `Option` and `Result`.
- `text.dfy` (`Text`): JavaScript's `includes`, `replace` with a
  one-character string pattern (it rewrites the first occurrence only), and
  the decimal rendering of a number.
- `naming.dfy` (`Naming`): derived keys, width labels, public URLs, and the
  upload handlers' key format.
- `media.dfy` (`Media`): the encoder format and the stored content type.
- `image_processor.dfy` (`ImageProcessor`): the per-width loop. It has a
  recursive reference definition (`Generate`), a looping method
  (`GenerateResizedImages`) proved equal to it, and lemmas about both.
- `url_shortener.dfy` (`UrlShortener`): the short-link table, its two
  operations, and sequences of calls on it.

Collaborators become parameters:

- `sharp` is an uninterpreted function `resize(bytes, width, format)`;
  `None` means it rejects.
- A storage write failing is the oracle `writeFails(width)`.
- The bucket is a `map` from key to (body, content type), threaded through
  the loop.
- The table is a `map` from id to URL. Whether a `PutItem` or `GetItem`
  request rejects is a boolean argument of the call.
- The id that `shortid.generate()` would return is an argument.
- `Date.now()` is an argument of `UploadKey`.

The intended naming puts the marker before the final extension
(`photo.jpg` → `photo-300px.jpg`, and `my.photo.jpg` → `my.photo-300px.jpg`),
and short ids are meant never to be reused. This model follows what the code
does instead:

- The rename rewrites the **first** `.` of the name. `photo.jpg` still becomes
  `photo-300px.jpg`, but `my.photo.jpg` becomes `my-300px.photo.jpg`. A name with no
  dot comes back unchanged, so all three widths write the same key and the
  600px object is what remains (`DotlessNameLastWidthWins`).
- Creating a short link is a **blind** put. There is no put-if-absent and no
  retry on collision, so a reused id replaces the earlier binding
  (`ReusedTokenOverwrites`, `LatestBindingWins`).

## Model

| member | source | states |
|---|---|---|
| `Text.Includes` | backend/imageProcessor.js:12 | `includes` answers yes only when the pattern fits in the string, and always answers yes for the empty pattern |
| `Text.IncludesIffOccurs` | backend/imageProcessor.js:12 | `includes` answers yes exactly when the pattern occurs at some index of the string |
| `Text.IndexOf` | backend/imageProcessor.js:15 | the search `replace` performs finds the first occurrence: the character is there and nowhere before it; `None` exactly when the character is absent |
| `Text.ReplaceFirst` | backend/imageProcessor.js:15 | a string without the pattern character comes back unchanged; otherwise one character is traded for the replacement text, so the length changes by that much |
| `Text.ReplaceFirstAt` | backend/imageProcessor.js:15 | for `p + "." + q` with no dot in `p`, the result is `p + rep + q`: only the first dot is rewritten, the rest of the string stays |
| `Text.DecimalString` | backend/imageProcessor.js:15 | `${width}` renders a number as at least one character, all decimal digits, with no leading zero unless the number is 0 |
| `Text.DecimalRoundTrip` | backend/imageProcessor.js:15 | reading the rendered digits back gives the number, so distinct widths give distinct markers |
| `Naming.DerivedKey` | backend/imageProcessor.js:15 | a dot-free name is returned unchanged; a dotted name keeps a dot and grows by exactly the length of `-{w}px` |
| `Naming.WidthLabel` | backend/imageProcessor.js:24 | the label `{w}px` is decimal digits followed by `px`, starts with `0` only for width 0, and its digits read back as the width |
| `Naming.PublicUrl` | backend/imageProcessor.js:24 | the URL is `https://`, then the bucket name, then `.s3.amazonaws.com/`, then the object key, and nothing else |
| `Naming.DerivedKeySplit` | backend/imageProcessor.js:15 | for a dotted name, the key is the text before the first dot, then `-{w}px`, then the text from that dot on; both parts are kept |
| `Naming.OriginalKeyRoundTrip` | backend/imageProcessor.js:15 | dropping the marker before the key's first dot gives back the original name, for every name |
| `Naming.DerivedKeyInjective` | backend/imageProcessor.js:15 | at one width, two names share a derived key only if they are the same name |
| `Naming.DerivedKeysDistinctIffDot` | backend/imageProcessor.js:15 | two different widths give different keys if and only if the name contains a dot |
| `Naming.UploadKey` | backend/Express.js:17 | the upload key is `uploads/`, then decimal digits that read back as the timestamp, then `-`, then the client's name; no dot comes before the name |
| `Naming.DerivedKeyOfUploadKey` | backend/Express.js:17 | the prefix `uploads/{digits}-` holds no dot, so renaming an upload key renames the client's file name inside it |
| `Media.EncoderFormat` | backend/imageProcessor.js:12 | the format handed to the encoder is the one whose MIME type is the content type stored with the object |
| `Media.StoredContentType` | backend/imageProcessor.js:21 | the stored content type is always `image/webp` or `image/jpeg` |
| `Media.WebpIffMentioned` | backend/imageProcessor.js:12 | WebP is chosen exactly when `image/webp` occurs in the MIME string, JPEG exactly when it does not |
| `ImageProcessor.Step` | backend/imageProcessor.js:10-22 | one width succeeds exactly when the resize succeeds and the write does not reject; it then writes the resized bytes under the derived key with the content type naming the encoder format; a failed resize is a `DecodeError` for that width |
| `ImageProcessor.Generate` | backend/imageProcessor.js:9-27 | the loop only adds or overwrites keys, keeps the labels it was given, and a rejection names one of its widths |
| `ImageProcessor.GenerateSucceeds` | backend/imageProcessor.js:9-27 | when no step rejects, the bucket is the old bucket with every width's write applied in list order, and the result maps each label to its URL |
| `ImageProcessor.GenerateFailsAt` | backend/imageProcessor.js:9-27 | when width `j` is the first to reject, only the writes of the widths before `j` are in the bucket and the run rejects with that step's error |
| `ImageProcessor.GenerateOkIff` | backend/imageProcessor.js:9-27 | the run succeeds exactly when every step does; a rejection names a width of the list whose step rejected with that error |
| `ImageProcessor.GenerateFrame` | backend/imageProcessor.js:17-22 | a key that is no width's derived key keeps its presence and its object |
| `ImageProcessor.ConcreteLabels` | backend/imageProcessor.js:24 | the labels of 100, 300 and 600 are `100px`, `300px` and `600px` |
| `ImageProcessor.ResizedImagesOnSuccess` | backend/imageProcessor.js:7-24 | on success the map is exactly `100px`, `300px`, `600px` mapped to the public URLs of the derived keys; the bucket gets the three writes in the order 100, 300, 600; each written object carries the normalised content type |
| `ImageProcessor.DottedNameKeepsEveryWidth` | backend/imageProcessor.js:15-22 | with a dot in the name the three keys are pairwise distinct, the bucket gains exactly those keys, and each holds its own width's object |
| `ImageProcessor.DotlessNameLastWidthWins` | backend/imageProcessor.js:15-24 | with no dot the three writes hit the name itself, the 600px object is the one left, and all three labels map to the same URL |
| `ImageProcessor.ResizedImagesFailFast` | backend/imageProcessor.js:9-27 | a rejection at 100 leaves the bucket as it was; at 300 only the 100px write is there; at 600 the 100px and 300px writes are there; no map is returned |
| `ImageProcessor.ResizedImagesTouchOnlyDerivedKeys` | backend/imageProcessor.js:17-23 | on success and on rejection alike, every key other than the three derived keys is unchanged |
| `ImageProcessor.GenerateResizedImages` | backend/imageProcessor.js:5-28 | the loop returns the bucket and result of the reference definition; it succeeds exactly when every width's resize and write succeed; a rejection names the width that rejected |
| `UrlShortener.ShortUrl` | backend/urlShortener.js:16 | the short URL is the fixed base followed by the id, with nothing in between |
| `UrlShortener.TokenOf` | backend/urlShortener.js:16 | a URL has an id exactly when it starts with the short-link base, and putting the base back in front of the id rebuilds the URL |
| `UrlShortener.TokenOfShortUrl` | backend/urlShortener.js:16 | removing the base from a returned short URL gives back the id |
| `UrlShortener.CreateShortUrl` | backend/urlShortener.js:7-17 | rejects exactly when the put rejects, leaving the table as it was; otherwise the table gains the id, bound to the URL even if it was bound before, and the returned URL's id is the generated one; every other entry stays in both cases |
| `UrlShortener.GetOriginalUrl` | backend/urlShortener.js:19-27 | rejects with `GetItemError` exactly when the read rejects; fails with `NotFound` exactly when the read succeeds and the id is absent; otherwise returns the bound URL |
| `UrlShortener.CreateThenResolve` | backend/urlShortener.js:13-26 | when the put and the read succeed, resolving the id of a link just created returns the URL it was created for |
| `UrlShortener.ReusedTokenOverwrites` | backend/urlShortener.js:8-15 | creating twice with one id leaves the second URL bound; the first is lost |
| `UrlShortener.UnboundTokenKeepsResolution` | backend/urlShortener.js:9-15 | calls that never successfully create a link for an id leave its resolution as it was |
| `UrlShortener.LatestBindingWins` | backend/urlShortener.js:9-26 | after any sequence of calls, a successful read of an id returns the URL of the latest successful create that used it |
| `UrlShortener.ResolvesAreReadOnly` | backend/urlShortener.js:19-27 | a sequence of lookups leaves the table unchanged, and each lookup returns what the table holds, so repeating one gives the same answer |

## Left out

- Image decoding, resizing and encoding by `sharp`: a native library. It is the uninterpreted parameter `resize`, so aspect ratio and pixel content are not modelled.
- The AWS SDK clients, their region and table/bucket environment variables: I/O. The bucket and the table are maps; a failing `PutObjectCommand` is the `writeFails` oracle, keyed by width because each width writes once.
- ImageProcessor.GenerateFailsAt: a rejected `PutObjectCommand` is assumed to have stored nothing. A rejection that arrives after S3 applied the write (a 500 or a dropped connection after the put landed) would leave that object in the bucket, which this lemma does not allow.
- ImageProcessor.ResizedImagesFailFast: relies on the same assumption that a rejected `PutObjectCommand` had no effect, so "the bucket as it was" after a rejection at 100 holds only for writes that failed before taking effect.
- UrlShortener.CreateShortUrl: a rejected `PutItemCommand` is assumed to have written nothing, so the table is unchanged on rejection. A rejection after DynamoDB applied the put would leave the new binding in place.
- UrlShortener.GetOriginalUrl: the table is modelled as strongly consistent. The `GetItemCommand` does not ask for `ConsistentRead`, and DynamoDB's default read is eventually consistent. Right after a `PutItem` the real read may still report "not found" or return an earlier binding. `UrlShortener.CreateThenResolve`, `UrlShortener.ReusedTokenOverwrites`, `UrlShortener.UnboundTokenKeepsResolution` and `UrlShortener.LatestBindingWins` rely on read-after-write and hold only for consistent reads.
- `shortid.generate()`: randomness from an external library that promises no uniqueness. The id is an argument.
- The order of the keys in the returned JavaScript object: `map` is unordered. The order of the writes is modelled.
- `async`/`await`: every await is sequential, so the loop is an ordinary loop.
- backend/Express.js and backend/server.js: routing, multipart parsing, `serverless-http`, JSON responses and the 500 mapping are HTTP plumbing. Only their key format `uploads/{Date.now()}-{originalname}` is modelled (`Naming.UploadKey`), with the clock reading as an argument.
- frontend/pages/Next.js: a React page calling endpoints the backend does not define.
- Inputs that are not strings (an `undefined` `contentType` or `fileName` would throw a `TypeError`): the model's arguments are strings.
- JavaScript strings are UTF-16 code units; the model uses Dafny `char` sequences with no encoding.

=== FILE: image_processor.dfy ===
/** `generateResizedImages` of backend/imageProcessor.js: for each width of
    a fixed list, in order, resize and re-encode the upload, write the result
    to object storage under a key derived from the upload's name, and record
    the object's public URL under the label `{w}px`. The first rejected step
    stops the loop: later widths are not attempted and earlier writes stay. */
module ImageProcessor {
  import opened Wrappers
  import opened Text
  import opened Naming
  import opened Media

  newtype byte = x: int | 0 <= x < 256

  type Bytes = seq<byte>

  /** An object in the bucket: its body and the `ContentType` it was put with. */
  datatype StoredObject = StoredObject(body: Bytes, contentType: string)

  /** The bucket, as its key-to-object map. */
  type Storage = map<string, StoredObject>

  /** The collaborators the pipeline awaits. `resize` stands for
      `sharp(bytes).resize({ width }).toFormat(fmt).toBuffer()`; `None` is a
      rejection (bytes that are not an image). `writeFails(w)` says whether
      the `PutObjectCommand` issued for width `w` rejects. */
  datatype Services = Services(
    resize: (Bytes, nat, Format) -> Option<Bytes>,
    writeFails: nat -> bool)

  /** The arguments `bucket`, `fileBuffer`, `fileName`, `contentType`. */
  datatype Upload = Upload(bucket: string, fileBuffer: Bytes, fileName: string, contentType: string)

  /** Why the returned promise rejects, and at which width. */
  datatype Error = DecodeError(width: nat) | StorageWriteError(width: nat)

  /** One successful storage write. */
  datatype Write = Write(key: string, obj: StoredObject)

  /** The bucket after a run, and what the run returned. */
  datatype Outcome = Outcome(storage: Storage, result: Result<map<string, string>, Error>)

  /** The widths, in the order they are processed. */
  const Resolutions: seq<nat> := [100, 300, 600]

  /** The work done for one width: resize, then the write it issues (or the
      rejection that stops the loop). */
  function Step(sv: Services, up: Upload, w: nat): (r: Result<Write, Error>)
    ensures r.Ok? <==> sv.resize(up.fileBuffer, w, EncoderFormat(up.contentType)).Some? && !sv.writeFails(w)
    ensures r.Ok? ==> r.value.key == DerivedKey(up.fileName, w)
    ensures r.Ok? ==> Some(r.value.obj.body) == sv.resize(up.fileBuffer, w, EncoderFormat(up.contentType))
    ensures r.Ok? ==> r.value.obj.contentType == MimeOf(EncoderFormat(up.contentType))
    ensures r.Err? ==> r.error.width == w
    ensures r == Err(DecodeError(w)) <==> sv.resize(up.fileBuffer, w, EncoderFormat(up.contentType)).None?
  {
    match sv.resize(up.fileBuffer, w, EncoderFormat(up.contentType))
    case None => Err(DecodeError(w))
    case Some(img) =>
      if sv.writeFails(w) then Err(StorageWriteError(w))
      else Ok(Write(DerivedKey(up.fileName, w), StoredObject(img, StoredContentType(up.contentType))))
  }

  /** The loop over `widths`, threading the bucket and the URL map. */
  function Generate(sv: Services, up: Upload, store: Storage, widths: seq<nat>, urls: map<string, string>): (o: Outcome)
    ensures store.Keys <= o.storage.Keys
    ensures o.result.Ok? ==> urls.Keys <= o.result.value.Keys
    ensures o.result.Err? ==> o.result.error.width in widths
    decreases |widths|
  {
    if widths == [] then Outcome(store, Ok(urls))
    else match Step(sv, up, widths[0])
      case Err(e) => Outcome(store, Err(e))
      case Ok(wr) =>
        Generate(sv, up, store[wr.key := wr.obj], widths[1..],
                 urls[WidthLabel(widths[0]) := PublicUrl(up.bucket, wr.key)])
  }

  /** Every width in `widths` resizes and writes without rejection. */
  predicate AllSucceed(sv: Services, up: Upload, widths: seq<nat>)
  {
    forall w :: w in widths ==> Step(sv, up, w).Ok?
  }

  /** The writes issued for `widths`, in order. */
  function Writes(sv: Services, up: Upload, widths: seq<nat>): seq<Write>
    requires AllSucceed(sv, up, widths)
    decreases |widths|
  {
    if widths == [] then []
    else [Step(sv, up, widths[0]).value] + Writes(sv, up, widths[1..])
  }

  /** Applies writes to a bucket in order; a later write to a key replaces
      an earlier one. */
  function PutAll(store: Storage, writes: seq<Write>): Storage
    decreases |writes|
  {
    if writes == [] then store
    else PutAll(store[writes[0].key := writes[0].obj], writes[1..])
  }

  /** Records the URL of each width's derivative under its label. */
  function AddUrls(urls: map<string, string>, bucket: string, fileName: string, widths: seq<nat>): map<string, string>
    decreases |widths|
  {
    if widths == [] then urls
    else AddUrls(urls[WidthLabel(widths[0]) := PublicUrl(bucket, DerivedKey(fileName, widths[0]))],
                 bucket, fileName, widths[1..])
  }

  /** When no step rejects, the run writes every width in order and returns
      the URL of each. */
  lemma {:induction false} GenerateSucceeds(sv: Services, up: Upload, store: Storage, widths: seq<nat>, urls: map<string, string>)
    requires AllSucceed(sv, up, widths)
    ensures Generate(sv, up, store, widths, urls) ==
              Outcome(PutAll(store, Writes(sv, up, widths)), Ok(AddUrls(urls, up.bucket, up.fileName, widths)))
    decreases |widths|
  {
    if widths != [] {
      var wr := Step(sv, up, widths[0]).value;
      assert AllSucceed(sv, up, widths[1..]) by {
        forall w | w in widths[1..] ensures Step(sv, up, w).Ok? {
          assert w in widths;
        }
      }
      GenerateSucceeds(sv, up, store[wr.key := wr.obj], widths[1..],
                       urls[WidthLabel(widths[0]) := PublicUrl(up.bucket, wr.key)]);
    }
  }

  /** Fail-fast: when the step for `widths[j]` is the first to reject, the
      bucket holds exactly the writes of the widths before it, and the run
      rejects with that step's error and no URL map. */
  lemma {:induction false} GenerateFailsAt(sv: Services, up: Upload, store: Storage, widths: seq<nat>, urls: map<string, string>, j: nat)
    requires j < |widths|
    requires AllSucceed(sv, up, widths[..j])
    requires Step(sv, up, widths[j]).Err?
    ensures Generate(sv, up, store, widths, urls) ==
              Outcome(PutAll(store, Writes(sv, up, widths[..j])), Err(Step(sv, up, widths[j]).error))
    decreases j
  {
    if j == 0 {
      assert widths[..0] == [];
    } else {
      var wr := Step(sv, up, widths[0]).value;
      assert widths[..j][0] == widths[0];
      assert widths[1..][..j - 1] == widths[..j][1..];
      assert widths[1..][j - 1] == widths[j];
      assert AllSucceed(sv, up, widths[1..][..j - 1]) by {
        forall w | w in widths[1..][..j - 1] ensures Step(sv, up, w).Ok? {
          assert w in widths[..j];
        }
      }
      GenerateFailsAt(sv, up, store[wr.key := wr.obj], widths[1..],
                      urls[WidthLabel(widths[0]) := PublicUrl(up.bucket, wr.key)], j - 1);
    }
  }

  /** The run succeeds exactly when every step does; a rejection names a
      width of the list whose step rejected. */
  lemma {:induction false} GenerateOkIff(sv: Services, up: Upload, store: Storage, widths: seq<nat>, urls: map<string, string>)
    ensures Generate(sv, up, store, widths, urls).result.Ok? <==> AllSucceed(sv, up, widths)
    ensures Generate(sv, up, store, widths, urls).result.Err? ==>
              var e := Generate(sv, up, store, widths, urls).result.error;
              e.width in widths && Step(sv, up, e.width) == Err(e)
    decreases |widths|
  {
    if widths != [] {
      match Step(sv, up, widths[0])
      case Err(e) =>
      case Ok(wr) =>
        GenerateOkIff(sv, up, store[wr.key := wr.obj], widths[1..],
                      urls[WidthLabel(widths[0]) := PublicUrl(up.bucket, wr.key)]);
        assert widths == [widths[0]] + widths[1..];
    }
  }

  /** The run writes no key other than the derived keys of its widths. */
  lemma {:induction false} GenerateFrame(sv: Services, up: Upload, store: Storage, widths: seq<nat>, urls: map<string, string>, k: string)
    requires forall w :: w in widths ==> k != DerivedKey(up.fileName, w)
    ensures k in Generate(sv, up, store, widths, urls).storage <==> k in store
    ensures k in store ==> Generate(sv, up, store, widths, urls).storage[k] == store[k]
    decreases |widths|
  {
    if widths != [] {
      match Step(sv, up, widths[0])
      case Err(e) =>
      case Ok(wr) =>
        assert widths[0] in widths;
        GenerateFrame(sv, up, store[wr.key := wr.obj], widths[1..],
                      urls[WidthLabel(widths[0]) := PublicUrl(up.bucket, wr.key)], k);
    }
  }

  /** The object written for width `w`, when its step succeeds. */
  function Rendition(sv: Services, up: Upload, w: nat): StoredObject
    requires Step(sv, up, w).Ok?
  {
    Step(sv, up, w).value.obj
  }

  lemma ConcreteLabels()
    ensures WidthLabel(100) == "100px"
    ensures WidthLabel(300) == "300px"
    ensures WidthLabel(600) == "600px"
  {
    assert DecimalString(100) == DecimalString(10) + ['0'];
    assert DecimalString(300) == DecimalString(30) + ['0'];
    assert DecimalString(600) == DecimalString(60) + ['0'];
  }

  /** On success: the URL map has exactly the keys `100px`, `300px` and
      `600px`, each holding the public URL of that width's derived key; the
      bucket is the old bucket with the three writes applied in the order
      100, 300, 600; and every written object carries the normalised content
      type. */
  lemma ResizedImagesOnSuccess(sv: Services, up: Upload, s3: Storage)
    requires AllSucceed(sv, up, Resolutions)
    ensures var o := Generate(sv, up, s3, Resolutions, map[]);
      && o.result == Ok(map[
           "100px" := PublicUrl(up.bucket, DerivedKey(up.fileName, 100)),
           "300px" := PublicUrl(up.bucket, DerivedKey(up.fileName, 300)),
           "600px" := PublicUrl(up.bucket, DerivedKey(up.fileName, 600))])
      && o.result.value.Keys == {"100px", "300px", "600px"}
      && o.storage == s3[DerivedKey(up.fileName, 100) := Rendition(sv, up, 100)]
                        [DerivedKey(up.fileName, 300) := Rendition(sv, up, 300)]
                        [DerivedKey(up.fileName, 600) := Rendition(sv, up, 600)]
      && (forall w :: w in Resolutions ==>
            DerivedKey(up.fileName, w) in o.storage &&
            o.storage[DerivedKey(up.fileName, w)].contentType == StoredContentType(up.contentType))
  {
    GenerateSucceeds(sv, up, s3, Resolutions, map[]);
    ConcreteLabels();
    var r := Resolutions;
    assert r[1..] == [300, 600] && r[1..][1..] == [600] && r[1..][1..][1..] == [];
    assert Writes(sv, up, r) == [Step(sv, up, 100).value, Step(sv, up, 300).value, Step(sv, up, 600).value];
  }

  /** The bucket after a successful run: the three writes in order. */
  lemma SuccessStorage(sv: Services, up: Upload, s3: Storage)
    requires AllSucceed(sv, up, Resolutions)
    ensures Generate(sv, up, s3, Resolutions, map[]).storage ==
              s3[DerivedKey(up.fileName, 100) := Rendition(sv, up, 100)]
                [DerivedKey(up.fileName, 300) := Rendition(sv, up, 300)]
                [DerivedKey(up.fileName, 600) := Rendition(sv, up, 600)]
  {
    ResizedImagesOnSuccess(sv, up, s3);
  }

  /** With a dot in the name the three derived keys are pairwise distinct, so
      each width's object survives under its own key. */
  lemma DottedNameKeepsEveryWidth(sv: Services, up: Upload, s3: Storage)
    requires '.' in up.fileName
    requires AllSucceed(sv, up, Resolutions)
    ensures DerivedKey(up.fileName, 100) != DerivedKey(up.fileName, 300)
    ensures DerivedKey(up.fileName, 100) != DerivedKey(up.fileName, 600)
    ensures DerivedKey(up.fileName, 300) != DerivedKey(up.fileName, 600)
    ensures var st := Generate(sv, up, s3, Resolutions, map[]).storage;
      && st.Keys == s3.Keys + {DerivedKey(up.fileName, 100), DerivedKey(up.fileName, 300), DerivedKey(up.fileName, 600)}
      && forall w :: w in Resolutions ==> st[DerivedKey(up.fileName, w)] == Rendition(sv, up, w)
  {
    SuccessStorage(sv, up, s3);
    DottedStorageKeepsEveryWidth(sv, up, s3, Generate(sv, up, s3, Resolutions, map[]).storage);
  }

  /** The map-level half of the above, for any bucket equal to the three
      writes applied in order. */
  lemma DottedStorageKeepsEveryWidth(sv: Services, up: Upload, s3: Storage, st: Storage)
    requires '.' in up.fileName
    requires AllSucceed(sv, up, Resolutions)
    requires st == s3[DerivedKey(up.fileName, 100) := Rendition(sv, up, 100)]
                     [DerivedKey(up.fileName, 300) := Rendition(sv, up, 300)]
                     [DerivedKey(up.fileName, 600) := Rendition(sv, up, 600)]
    ensures DerivedKey(up.fileName, 100) != DerivedKey(up.fileName, 300)
    ensures DerivedKey(up.fileName, 100) != DerivedKey(up.fileName, 600)
    ensures DerivedKey(up.fileName, 300) != DerivedKey(up.fileName, 600)
    ensures st.Keys == s3.Keys + {DerivedKey(up.fileName, 100), DerivedKey(up.fileName, 300), DerivedKey(up.fileName, 600)}
    ensures forall w :: w in Resolutions ==> st[DerivedKey(up.fileName, w)] == Rendition(sv, up, w)
  {
    var k1, k2, k3 := DerivedKey(up.fileName, 100), DerivedKey(up.fileName, 300), DerivedKey(up.fileName, 600);
    DerivedKeysDistinctIffDot(up.fileName, 100, 300);
    DerivedKeysDistinctIffDot(up.fileName, 100, 600);
    DerivedKeysDistinctIffDot(up.fileName, 300, 600);
    ThreeDistinctPuts(s3, k1, Rendition(sv, up, 100), k2, Rendition(sv, up, 300), k3, Rendition(sv, up, 600));
  }

  /** Three writes to pairwise distinct keys each survive. */
  lemma ThreeDistinctPuts(s: Storage, k1: string, o1: StoredObject, k2: string, o2: StoredObject, k3: string, o3: StoredObject)
    requires k1 != k2 && k1 != k3 && k2 != k3
    ensures var t := s[k1 := o1][k2 := o2][k3 := o3];
      t.Keys == s.Keys + {k1, k2, k3} && t[k1] == o1 && t[k2] == o2 && t[k3] == o3
  {
  }

  /** With no dot in the name every width writes the name itself: the three
      writes land on one key, the 600px object is the one left there, and
      all three URLs are the same. */
  lemma DotlessNameLastWidthWins(sv: Services, up: Upload, s3: Storage)
    requires '.' !in up.fileName
    requires AllSucceed(sv, up, Resolutions)
    ensures var o := Generate(sv, up, s3, Resolutions, map[]);
      && o.storage == s3[up.fileName := Rendition(sv, up, 600)]
      && o.result == Ok(map[
           "100px" := PublicUrl(up.bucket, up.fileName),
           "300px" := PublicUrl(up.bucket, up.fileName),
           "600px" := PublicUrl(up.bucket, up.fileName)])
  {
    SuccessOutcome(sv, up, s3);
    DotlessOutcome(sv, up, s3, Generate(sv, up, s3, Resolutions, map[]));
  }

  /** The outcome of a successful run, bucket and URL map together. */
  lemma SuccessOutcome(sv: Services, up: Upload, s3: Storage)
    requires AllSucceed(sv, up, Resolutions)
    ensures Generate(sv, up, s3, Resolutions, map[]) == Outcome(
              s3[DerivedKey(up.fileName, 100) := Rendition(sv, up, 100)]
                [DerivedKey(up.fileName, 300) := Rendition(sv, up, 300)]
                [DerivedKey(up.fileName, 600) := Rendition(sv, up, 600)],
              Ok(map[
                "100px" := PublicUrl(up.bucket, DerivedKey(up.fileName, 100)),
                "300px" := PublicUrl(up.bucket, DerivedKey(up.fileName, 300)),
                "600px" := PublicUrl(up.bucket, DerivedKey(up.fileName, 600))]))
  {
    ResizedImagesOnSuccess(sv, up, s3);
  }

  /** The map-level half of the above: with every derived key equal to the
      name, the three writes and the three URLs collapse onto one key. */
  lemma DotlessOutcome(sv: Services, up: Upload, s3: Storage, o: Outcome)
    requires '.' !in up.fileName
    requires AllSucceed(sv, up, Resolutions)
    requires o == Outcome(
              s3[DerivedKey(up.fileName, 100) := Rendition(sv, up, 100)]
                [DerivedKey(up.fileName, 300) := Rendition(sv, up, 300)]
                [DerivedKey(up.fileName, 600) := Rendition(sv, up, 600)],
              Ok(map[
                "100px" := PublicUrl(up.bucket, DerivedKey(up.fileName, 100)),
                "300px" := PublicUrl(up.bucket, DerivedKey(up.fileName, 300)),
                "600px" := PublicUrl(up.bucket, DerivedKey(up.fileName, 600))]))
    ensures o.storage == s3[up.fileName := Rendition(sv, up, 600)]
    ensures o.result == Ok(map[
              "100px" := PublicUrl(up.bucket, up.fileName),
              "300px" := PublicUrl(up.bucket, up.fileName),
              "600px" := PublicUrl(up.bucket, up.fileName)])
  {
  }

  /** Fail-fast at each of the three widths: a rejection at 100 leaves the
      bucket as it was; at 300 only the 100px write is there; at 600 the
      100px and 300px writes are there. No URL map is returned. */
  lemma ResizedImagesFailFast(sv: Services, up: Upload, s3: Storage)
    ensures var o := Generate(sv, up, s3, Resolutions, map[]);
      && (Step(sv, up, 100).Err? ==>
            o == Outcome(s3, Err(Step(sv, up, 100).error)))
      && (Step(sv, up, 100).Ok? && Step(sv, up, 300).Err? ==>
            o == Outcome(s3[DerivedKey(up.fileName, 100) := Rendition(sv, up, 100)],
                         Err(Step(sv, up, 300).error)))
      && (Step(sv, up, 100).Ok? && Step(sv, up, 300).Ok? && Step(sv, up, 600).Err? ==>
            o == Outcome(s3[DerivedKey(up.fileName, 100) := Rendition(sv, up, 100)]
                           [DerivedKey(up.fileName, 300) := Rendition(sv, up, 300)],
                         Err(Step(sv, up, 600).error)))
  {
    if Step(sv, up, 100).Err? {
      FailsAtFirst(sv, up, s3);
    } else if Step(sv, up, 300).Err? {
      FailsAtSecond(sv, up, s3);
    } else if Step(sv, up, 600).Err? {
      FailsAtThird(sv, up, s3);
    }
  }

  /** A rejection at 100 writes nothing. */
  lemma FailsAtFirst(sv: Services, up: Upload, s3: Storage)
    requires Step(sv, up, 100).Err?
    ensures Generate(sv, up, s3, Resolutions, map[]) == Outcome(s3, Err(Step(sv, up, 100).error))
  {
    GenerateFailsAt(sv, up, s3, Resolutions, map[], 0);
  }

  /** A rejection at 300 leaves only the 100px write. */
  lemma FailsAtSecond(sv: Services, up: Upload, s3: Storage)
    requires Step(sv, up, 100).Ok? && Step(sv, up, 300).Err?
    ensures Generate(sv, up, s3, Resolutions, map[]) ==
              Outcome(s3[DerivedKey(up.fileName, 100) := Rendition(sv, up, 100)], Err(Step(sv, up, 300).error))
  {
    var r := Resolutions;
    assert r[..1] == [100];
    GenerateFailsAt(sv, up, s3, r, map[], 1);
    assert Writes(sv, up, r[..1]) == [Step(sv, up, 100).value];
  }

  /** A rejection at 600 leaves the 100px and 300px writes. */
  lemma FailsAtThird(sv: Services, up: Upload, s3: Storage)
    requires Step(sv, up, 100).Ok? && Step(sv, up, 300).Ok? && Step(sv, up, 600).Err?
    ensures Generate(sv, up, s3, Resolutions, map[]) ==
              Outcome(s3[DerivedKey(up.fileName, 100) := Rendition(sv, up, 100)]
                        [DerivedKey(up.fileName, 300) := Rendition(sv, up, 300)],
                      Err(Step(sv, up, 600).error))
  {
    var r := Resolutions;
    assert r[..2] == [100, 300];
    GenerateFailsAt(sv, up, s3, r, map[], 2);
    assert r[..2][1..] == [300] && r[..2][1..][1..] == [];
    assert Writes(sv, up, r[..2][1..]) == [Step(sv, up, 300).value];
    assert Writes(sv, up, r[..2]) == [Step(sv, up, 100).value, Step(sv, up, 300).value];
  }

  /** Keys other than the three derived keys are untouched, whether the run
      succeeds or rejects part-way. */
  lemma ResizedImagesTouchOnlyDerivedKeys(sv: Services, up: Upload, s3: Storage, k: string)
    requires k != DerivedKey(up.fileName, 100)
    requires k != DerivedKey(up.fileName, 300)
    requires k != DerivedKey(up.fileName, 600)
    ensures var o := Generate(sv, up, s3, Resolutions, map[]);
      && (k in o.storage <==> k in s3)
      && (k in s3 ==> o.storage[k] == s3[k])
  {
    GenerateFrame(sv, up, s3, Resolutions, map[], k);
  }

  /** `generateResizedImages(s3, bucket, fileBuffer, fileName, contentType)`:
      returns the bucket after the run together with the URL map, or the
      rejection that stopped it. */
  method GenerateResizedImages(sv: Services, s3: Storage, up: Upload)
    returns (store: Storage, r: Result<map<string, string>, Error>)
    ensures Outcome(store, r) == Generate(sv, up, s3, Resolutions, map[])
    ensures r.Ok? <==> AllSucceed(sv, up, Resolutions)
    ensures r.Err? ==> r.error.width in Resolutions && Step(sv, up, r.error.width) == Err(r.error)
  {
    var urls: map<string, string> := map[];
    store := s3;
    var i := 0;
    while i < |Resolutions|
      invariant 0 <= i <= |Resolutions|
      invariant Generate(sv, up, store, Resolutions[i..], urls) == Generate(sv, up, s3, Resolutions, map[])
    {
      var width := Resolutions[i];
      var resized := sv.resize(up.fileBuffer, width, EncoderFormat(up.contentType));
      if resized.None? {
        r := Err(DecodeError(width));
        GenerateOkIff(sv, up, s3, Resolutions, map[]);
        return;
      }
      var newFileName := DerivedKey(up.fileName, width);
      if sv.writeFails(width) {
        r := Err(StorageWriteError(width));
        GenerateOkIff(sv, up, s3, Resolutions, map[]);
        return;
      }
      store := store[newFileName := StoredObject(resized.value, StoredContentType(up.contentType))];
      urls := urls[WidthLabel(width) := PublicUrl(up.bucket, newFileName)];
      i := i + 1;
    }
    r := Ok(urls);
    GenerateOkIff(sv, up, s3, Resolutions, map[]);
  }
}

=== FILE: media.dfy ===
/** The output-format policy of backend/imageProcessor.js: the encoder format
    handed to the resizer and the content type stored with each derivative
    are both decided by whether the upload's MIME string mentions
    `image/webp`. */
module Media {
  import opened Text

  /** The two encodings the pipeline asks the resizer for. */
  datatype Format = Webp | Jpeg

  const WebpMime: string := "image/webp"
  const JpegMime: string := "image/jpeg"

  /** The MIME type that names an encoding. */
  function MimeOf(f: Format): string
  {
    match f
    case Webp => WebpMime
    case Jpeg => JpegMime
  }

  /** `contentType.includes("image/webp") ? "webp" : "jpeg"`, the format
      passed to the encoder. */
  function EncoderFormat(contentType: string): (f: Format)
    ensures MimeOf(f) == StoredContentType(contentType)
  {
    if Includes(contentType, WebpMime) then Webp else Jpeg
  }

  /** `contentType.includes("image/webp") ? "image/webp" : "image/jpeg"`, the
      content type written with the object; computed apart from the encoder
      format. */
  function StoredContentType(contentType: string): (m: string)
    ensures m == WebpMime || m == JpegMime
  {
    if Includes(contentType, WebpMime) then WebpMime else JpegMime
  }

  /** WebP is chosen exactly when `image/webp` occurs somewhere in the
      upload's MIME string; anything else, including no content type at all,
      becomes JPEG. */
  lemma WebpIffMentioned(contentType: string)
    ensures EncoderFormat(contentType) == Webp <==> exists i: nat :: OccursAt(contentType, WebpMime, i)
    ensures EncoderFormat(contentType) == Jpeg <==> !exists i: nat :: OccursAt(contentType, WebpMime, i)
  {
    IncludesIffOccurs(contentType, WebpMime);
  }
}

=== FILE: naming.dfy ===
/** Object keys, result-map labels and public URLs built by the image
    pipeline (backend/imageProcessor.js) and the upload handlers
    (backend/Express.js, backend/server.js). */
module Naming {
  import opened Text

  /** The text `-{w}px` that the renamer puts in front of the first dot. */
  function WidthMarker(w: nat): string
  {
    "-" + DecimalString(w) + "px"
  }

  /** The key `{w}px` under which a width's URL is reported. */
  function WidthLabel(w: nat): (l: string)
    ensures |l| >= 3 && l[|l| - 2..] == "px"
    ensures forall i :: 0 <= i < |l| - 2 ==> '0' <= l[i] <= '9'
    ensures l[0] == '0' ==> w == 0
    ensures DecimalValue(l[..|l| - 2]) == w
  {
    DecimalRoundTrip(w);
    var l := DecimalString(w) + "px";
    assert l[..|l| - 2] == DecimalString(w);
    l
  }

  /** `fileName.replace('.', `-${width}px.`)`. The replacement text holds no
      `$`, so JavaScript substitutes it literally; the pattern is a string, so
      only the first dot is rewritten. */
  function DerivedKey(fileName: string, w: nat): (k: string)
    ensures '.' !in fileName ==> k == fileName
    ensures '.' in fileName ==> '.' in k && |k| == |fileName| + |WidthMarker(w)|
  {
    ReplaceFirst(fileName, '.', WidthMarker(w) + ".")
  }

  /** `https://${bucket}.s3.amazonaws.com/${key}`. */
  function PublicUrl(bucket: string, key: string): (u: string)
    ensures |u| == |bucket| + |key| + 26
    ensures u[..8] == "https://" && u[8..8 + |bucket|] == bucket
    ensures u[8 + |bucket|..|u| - |key|] == ".s3.amazonaws.com/"
    ensures u[|u| - |key|..] == key
  {
    "https://" + bucket + ".s3.amazonaws.com/" + key
  }

  /** `uploads/${Date.now()}-${file.originalname}`, the clock reading taken
      as a parameter. */
  function UploadKey(timestamp: nat, originalName: string): (k: string)
    ensures |k| > |originalName| + 8
    ensures k[..8] == "uploads/"
    ensures k[|k| - |originalName|..] == originalName
    ensures '.' !in k[..|k| - |originalName|]
    ensures k[|k| - |originalName| - 1] == '-'
    ensures forall i :: 8 <= i < |k| - |originalName| - 1 ==> '0' <= k[i] <= '9'
    ensures DecimalValue(k[8..|k| - |originalName| - 1]) == timestamp
  {
    var d := DecimalString(timestamp);
    DecimalStringHasNoDot(timestamp);
    DecimalRoundTrip(timestamp);
    var p := "uploads/" + d + "-";
    assert "uploads/" == ['u', 'p', 'l', 'o', 'a', 'd', 's', '/'];
    assert '.' !in p;
    var k := p + originalName;
    assert k[..|k| - |originalName|] == p;
    assert k[8..|k| - |originalName| - 1] == d;
    assert forall i :: 8 <= i < |k| - |originalName| - 1 ==> k[i] == d[i - 8];
    k
  }

  lemma WidthMarkerHasNoDot(w: nat)
    ensures '.' !in WidthMarker(w)
  {
    DecimalStringHasNoDot(w);
    assert WidthMarker(w) == ['-'] + DecimalString(w) + ['p', 'x'];
  }

  /** With a dot in the name, the key is the name with the marker inserted
      right before its first dot: the text before that dot is kept as the
      key's prefix and the text from the dot on as its suffix. */
  lemma DerivedKeySplit(fileName: string, w: nat)
    requires '.' in fileName
    ensures var i := IndexOf(fileName, '.').value;
      && DerivedKey(fileName, w) == fileName[..i] + WidthMarker(w) + fileName[i..]
      && DerivedKey(fileName, w)[..i] == fileName[..i]
      && DerivedKey(fileName, w)[i + |WidthMarker(w)|..] == fileName[i..]
      && |DerivedKey(fileName, w)| == |fileName| + |WidthMarker(w)|
  {
    var i := IndexOf(fileName, '.').value;
    var p, q := fileName[..i], fileName[i + 1..];
    assert fileName == p + ['.'] + q;
    ReplaceFirstAt(p, '.', q, WidthMarker(w) + ".");
    assert fileName[i..] == ['.'] + q;
    var k := DerivedKey(fileName, w);
    assert k == p + WidthMarker(w) + fileName[i..];
  }

  /** Recovers the uploaded object's key from the key of one of its
      derivatives: drops the marker in front of the first dot. */
  function OriginalKey(key: string, w: nat): string
  {
    var m := WidthMarker(w);
    match IndexOf(key, '.')
    case None => key
    case Some(i) =>
      if |m| <= i && key[i - |m|..i] == m then key[..i - |m|] + key[i..] else key
  }

  /** The marker in front of the first dot is what `OriginalKey` drops. */
  lemma OriginalKeyOfMarked(p: string, q: string, w: nat)
    requires '.' !in p && |q| > 0 && q[0] == '.'
    ensures OriginalKey(p + WidthMarker(w) + q, w) == p + q
  {
    var m := WidthMarker(w);
    var k := p + m + q;
    WidthMarkerHasNoDot(w);
    assert '.' !in p + m;
    assert k == (p + m) + q;
    IndexOfAfterPrefix(p + m, q, '.', 0);
    assert k[|p|..|p| + |m|] == m;
    assert k[..|p|] == p;
    assert k[|p| + |m|..] == q;
  }

  /** Renaming loses nothing: the original key can be read back from any
      derived key. */
  lemma OriginalKeyRoundTrip(fileName: string, w: nat)
    ensures OriginalKey(DerivedKey(fileName, w), w) == fileName
  {
    if '.' in fileName {
      var i := IndexOf(fileName, '.').value;
      DerivedKeySplit(fileName, w);
      OriginalKeyOfMarked(fileName[..i], fileName[i..], w);
      assert fileName[..i] + fileName[i..] == fileName;
    }
  }

  /** Two different originals never share a derivative key at one width. */
  lemma DerivedKeyInjective(name1: string, name2: string, w: nat)
    ensures DerivedKey(name1, w) == DerivedKey(name2, w) <==> name1 == name2
  {
    OriginalKeyRoundTrip(name1, w);
    OriginalKeyRoundTrip(name2, w);
  }

  /** The keys of two different widths differ exactly when the name has a
      dot; a dot-free name comes back unchanged at every width. */
  lemma DerivedKeysDistinctIffDot(fileName: string, w1: nat, w2: nat)
    requires w1 != w2
    ensures DerivedKey(fileName, w1) != DerivedKey(fileName, w2) <==> '.' in fileName
  {
    if '.' in fileName && DerivedKey(fileName, w1) == DerivedKey(fileName, w2) {
      var i := IndexOf(fileName, '.').value;
      var k := DerivedKey(fileName, w1);
      var m1, m2 := WidthMarker(w1), WidthMarker(w2);
      DerivedKeySplit(fileName, w1);
      DerivedKeySplit(fileName, w2);
      assert |m1| == |m2|;
      assert k[i..i + |m1|] == m1;
      assert k[i..i + |m2|] == m2;
      assert DecimalString(w1) == m1[1..|m1| - 2];
      assert DecimalString(w2) == m2[1..|m2| - 2];
      DecimalStringInjective(w1, w2);
      assert false;
    }
  }

  /** The handlers' key prefix `uploads/{digits}-` holds no dot, so the
      renamer's first dot is the first dot of the client's file name. */
  lemma {:induction false} DerivedKeyOfUploadKey(timestamp: nat, originalName: string, w: nat)
    ensures DerivedKey(UploadKey(timestamp, originalName), w) ==
              UploadKey(timestamp, DerivedKey(originalName, w))
  {
    var p := "uploads/" + DecimalString(timestamp) + "-";
    DecimalStringHasNoDot(timestamp);
    assert "uploads/" == ['u', 'p', 'l', 'o', 'a', 'd', 's', '/'];
    assert '.' !in p;
    assert UploadKey(timestamp, originalName) == p + originalName;
    ReplaceFirstAfterPrefix(p, originalName, '.', WidthMarker(w) + ".");
  }
}

=== FILE: text.dfy ===
/** The pieces of JavaScript's string library that the backend leans on:
    `includes`, the first-occurrence search that `replace` performs when its
    pattern is a string, and the decimal rendering of a number inside a
    template literal. */
module Text {
  import opened Wrappers

  /** `pat` occurs in `s` starting at index `i`. */
  predicate OccursAt(s: string, pat: string, i: nat)
  {
    i + |pat| <= |s| && s[i..i + |pat|] == pat
  }

  /** `s.includes(pat)`, as a left-to-right scan. */
  function Includes(s: string, pat: string): (b: bool)
    ensures b ==> |pat| <= |s|
    ensures pat == [] ==> b
    decreases |s|
  {
    if |s| < |pat| then false
    else if s[..|pat|] == pat then true
    else Includes(s[1..], pat)
  }

  /** The scan answers yes exactly when `pat` occurs somewhere in `s`. */
  lemma {:induction false} IncludesIffOccurs(s: string, pat: string)
    ensures Includes(s, pat) <==> exists i: nat :: OccursAt(s, pat, i)
    decreases |s|
  {
    if |s| < |pat| {
    } else if s[..|pat|] == pat {
      assert OccursAt(s, pat, 0);
    } else {
      IncludesIffOccurs(s[1..], pat);
      if exists i: nat :: OccursAt(s, pat, i) {
        var i: nat :| OccursAt(s, pat, i);
        assert i != 0;
        assert s[1..][i - 1..i - 1 + |pat|] == s[i..i + |pat|];
        assert OccursAt(s[1..], pat, i - 1);
      }
      if exists j: nat :: OccursAt(s[1..], pat, j) {
        var j: nat :| OccursAt(s[1..], pat, j);
        assert s[1..][j..j + |pat|] == s[j + 1..j + 1 + |pat|];
        assert OccursAt(s, pat, j + 1);
      }
    }
  }

  /** Index of the first `c` in `s` at or after `from`, or `None`. */
  function IndexFrom(s: string, c: char, from: nat): (r: Option<nat>)
    requires from <= |s|
    ensures r.None? <==> c !in s[from..]
    ensures r.Some? ==> from <= r.value < |s| && s[r.value] == c && c !in s[from..r.value]
    decreases |s| - from
  {
    if from == |s| then None
    else if s[from] == c then Some(from)
    else
      var r := IndexFrom(s, c, from + 1);
      assert s[from..] == [s[from]] + s[from + 1..];
      assert r.Some? ==> s[from..r.value] == [s[from]] + s[from + 1..r.value];
      r
  }

  /** Index of the first `c` in `s`, or `None` when `s` has no `c`. */
  function IndexOf(s: string, c: char): (r: Option<nat>)
    ensures r.None? <==> c !in s
    ensures r.Some? ==> r.value < |s| && s[r.value] == c && c !in s[..r.value]
  {
    assert s[0..] == s;
    IndexFrom(s, c, 0)
  }

  /** The first occurrence is the only index with a `c` and no `c` before it. */
  lemma IndexOfUnique(s: string, c: char, i: nat)
    requires i < |s| && s[i] == c && c !in s[..i]
    ensures IndexOf(s, c) == Some(i)
  {
    assert s[i] in s;
  }

  /** A prefix without `c` shifts the first `c` by its length. */
  lemma IndexOfAfterPrefix(p: string, s: string, c: char, i: nat)
    requires c !in p && i < |s| && s[i] == c && c !in s[..i]
    ensures IndexOf(p + s, c) == Some(|p| + i)
  {
    var t := p + s;
    var u := s[..i];
    assert t[..|p| + i] == p + u;
    assert c !in p + u;
    IndexOfUnique(t, c, |p| + i);
  }

  /** `s.replace(c, rep)` with a one-character string pattern: the first `c`,
      and only the first, is replaced by `rep`. */
  function ReplaceFirst(s: string, c: char, rep: string): (r: string)
    ensures c !in s ==> r == s
    ensures c in s ==> |r| == |s| - 1 + |rep|
  {
    match IndexOf(s, c)
    case None => s
    case Some(i) => s[..i] + rep + s[i + 1..]
  }

  /** Splitting at the first `c`: whatever precedes it and whatever follows
      it survive the replacement unchanged. */
  lemma ReplaceFirstAt(p: string, c: char, q: string, rep: string)
    requires c !in p
    ensures ReplaceFirst(p + [c] + q, c, rep) == p + rep + q
  {
    var s := p + [c] + q;
    assert s[..|p|] == p;
    IndexOfUnique(s, c, |p|);
    assert s[|p| + 1..] == q;
  }

  /** A prefix without `c` does not move the first `c`: the replacement
      happens in the remainder. */
  lemma ReplaceFirstAfterPrefix(p: string, s: string, c: char, rep: string)
    requires c !in p
    ensures ReplaceFirst(p + s, c, rep) == p + ReplaceFirst(s, c, rep)
  {
    if c in s {
      var i := IndexOf(s, c).value;
      var a, b := s[..i], s[i + 1..];
      assert s == a + [c] + b;
      ReplaceFirstAt(a, c, b, rep);
      assert p + s == (p + a) + [c] + b;
      assert c !in p + a;
      ReplaceFirstAt(p + a, c, b, rep);
    } else {
      assert c !in p + s;
    }
  }

  /** The character for a decimal digit. */
  function DigitChar(d: nat): char
    requires d < 10
  {
    ('0' as int + d) as char
  }

  /** The numeric value of a decimal digit character. */
  function DigitValue(c: char): nat
  {
    if '0' <= c <= '9' then c as int - '0' as int else 0
  }

  /** `${n}` for the non-negative integers the backend renders (widths and
      millisecond timestamps, far below 2^53, where JavaScript prints every
      integer exactly and without exponent): its decimal digits, no sign, no
      leading zeros. */
  function DecimalString(n: nat): (s: string)
    ensures |s| >= 1
    ensures forall i :: 0 <= i < |s| ==> '0' <= s[i] <= '9'
    ensures s[0] == '0' ==> n == 0
    decreases n
  {
    if n < 10 then [DigitChar(n)] else DecimalString(n / 10) + [DigitChar(n % 10)]
  }

  /** Reads a string of decimal digits back as a number. */
  function DecimalValue(s: string): nat
    decreases |s|
  {
    if |s| == 0 then 0 else DecimalValue(s[..|s| - 1]) * 10 + DigitValue(s[|s| - 1])
  }

  /** Rendering a number and reading it back gives the number. */
  lemma {:induction false} DecimalRoundTrip(n: nat)
    ensures DecimalValue(DecimalString(n)) == n
    decreases n
  {
    if n >= 10 {
      DecimalRoundTrip(n / 10);
      var s := DecimalString(n);
      assert s[..|s| - 1] == DecimalString(n / 10);
    }
  }

  /** Distinct numbers render as distinct strings. */
  lemma DecimalStringInjective(m: nat, n: nat)
    ensures DecimalString(m) == DecimalString(n) <==> m == n
  {
    if DecimalString(m) == DecimalString(n) {
      DecimalRoundTrip(m);
      DecimalRoundTrip(n);
    }
  }

  /** A decimal rendering never holds a dot. */
  lemma DecimalStringHasNoDot(n: nat)
    ensures '.' !in DecimalString(n)
  {
    var s := DecimalString(n);
    assert forall i :: 0 <= i < |s| ==> s[i] != '.';
  }
}

=== FILE: url_shortener.dfy ===
/** `createShortUrl` and `getOriginalUrl` of backend/urlShortener.js: a
    table from short id to original URL. Creating is an unconditional put of
    the freshly generated id; resolving is a read that either finds the id or
    fails with "not found". The id generator is an oracle: its value is a
    parameter. So is whether each DynamoDB request rejects. */
module UrlShortener {
  import opened Wrappers

  /** The DynamoDB table, as its `shortId` to `originalUrl` map. */
  type Table = map<string, string>

  /** The fixed base that `createShortUrl` puts in front of the id. */
  const ShortUrlBase: string := "https://your-api.com/short/"

  /** The rejection of `createShortUrl`: its `PutItemCommand` rejected. */
  datatype CreateError = PutItemError

  /** The table after a create, and the short URL it returned or its
      rejection. */
  datatype Created = Created(table: Table, result: Result<string, CreateError>)

  /** The rejections of `getOriginalUrl`: `Short URL not found`, or the
      `GetItemCommand` itself rejected. */
  datatype LookupError = NotFound | GetItemError

  /** `https://your-api.com/short/${shortId}`. */
  function ShortUrl(token: string): (s: string)
    ensures |s| == |ShortUrlBase| + |token|
    ensures s[..|ShortUrlBase|] == ShortUrlBase
    ensures s[|ShortUrlBase|..] == token
  {
    ShortUrlBase + token
  }

  /** Removes the fixed base from a short URL; `None` for a URL that does
      not start with it. */
  function TokenOf(url: string): (r: Option<string>)
    ensures r.Some? <==> |ShortUrlBase| <= |url| && url[..|ShortUrlBase|] == ShortUrlBase
    ensures r.Some? ==> ShortUrl(r.value) == url
  {
    if |ShortUrlBase| <= |url| && url[..|ShortUrlBase|] == ShortUrlBase then
      assert url == url[..|ShortUrlBase|] + url[|ShortUrlBase|..];
      Some(url[|ShortUrlBase|..])
    else None
  }

  /** Stripping the base from a short URL gives back the id. */
  lemma TokenOfShortUrl(token: string)
    ensures TokenOf(ShortUrl(token)) == Some(token)
  {
  }

  /** `createShortUrl(originalUrl)` with `token` as the generated id and
      `putFails` saying whether the `PutItemCommand` rejects. On success the
      id is bound to the URL, replacing any earlier binding of the same id,
      every other entry stays, and the returned short URL embeds the id. On
      rejection the table is as it was. */
  function CreateShortUrl(table: Table, token: string, originalUrl: string, putFails: bool): (c: Created)
    ensures c.result.Err? <==> putFails
    ensures putFails ==> c.table == table
    ensures !putFails ==> c.table.Keys == table.Keys + {token}
    ensures !putFails ==> c.table[token] == originalUrl
    ensures forall k :: k in table && k != token ==> c.table[k] == table[k]
    ensures c.result.Ok? ==> TokenOf(c.result.value) == Some(token)
  {
    if putFails then Created(table, Err(PutItemError))
    else
      TokenOfShortUrl(token);
      Created(table[token := originalUrl], Ok(ShortUrl(token)))
  }

  /** `getOriginalUrl(shortId)` with `getFails` saying whether the
      `GetItemCommand` rejects. `NotFound` exactly when the read succeeds and
      the id has no entry; the bound URL exactly when the read succeeds and
      the id has one. */
  function GetOriginalUrl(table: Table, token: string, getFails: bool): (r: Result<string, LookupError>)
    ensures r == Err(GetItemError) <==> getFails
    ensures r == Err(NotFound) <==> !getFails && token !in table
    ensures r.Ok? <==> !getFails && token in table
    ensures r.Ok? ==> r.value == table[token]
  {
    if getFails then Err(GetItemError)
    else if token in table then Ok(table[token]) else Err(NotFound)
  }

  /** When the put and the read both succeed, resolving the id of a link
      just created gives back its URL, whatever the id was bound to before. */
  lemma CreateThenResolve(table: Table, token: string, originalUrl: string)
    ensures var c := CreateShortUrl(table, token, originalUrl, false);
      GetOriginalUrl(c.table, TokenOf(c.result.value).value, false) == Ok(originalUrl)
  {
  }

  /** No collision check: creating with an id that is already bound loses
      the old URL. */
  lemma ReusedTokenOverwrites(table: Table, token: string, first: string, second: string)
    requires first != second
    ensures var t1 := CreateShortUrl(table, token, first, false).table;
      var t2 := CreateShortUrl(t1, token, second, false).table;
      GetOriginalUrl(t1, token, false) == Ok(first) && GetOriginalUrl(t2, token, false) == Ok(second)
  {
  }

  /** A call on the directory: create a link (with the id the generator
      produced) or resolve an id; each says whether its request rejects. */
  datatype Request =
    | Shorten(token: string, originalUrl: string, putFails: bool)
    | Resolve(token: string, getFails: bool)

  /** What the call returned. */
  datatype Response =
    | Shortened(result: Result<string, CreateError>)
    | Resolved(lookup: Result<string, LookupError>)

  /** The table after a sequence of calls and the response to each. */
  datatype Served = Served(table: Table, responses: seq<Response>)

  /** One call against the table. */
  function Handle(table: Table, req: Request): Served
  {
    match req
    case Shorten(token, url, putFails) =>
      var c := CreateShortUrl(table, token, url, putFails);
      Served(c.table, [Shortened(c.result)])
    case Resolve(token, getFails) =>
      Served(table, [Resolved(GetOriginalUrl(table, token, getFails))])
  }

  /** Sequential calls, each seeing the table its predecessors left. */
  function Serve(table: Table, reqs: seq<Request>): (s: Served)
    ensures |s.responses| == |reqs|
    decreases |reqs|
  {
    if reqs == [] then Served(table, [])
    else
      var first := Handle(table, reqs[0]);
      var rest := Serve(first.table, reqs[1..]);
      Served(rest.table, first.responses + rest.responses)
  }

  /** Running two batches one after the other is running their
      concatenation. */
  lemma {:induction false} ServeConcat(table: Table, a: seq<Request>, b: seq<Request>)
    ensures Serve(table, a + b).table == Serve(Serve(table, a).table, b).table
    decreases |a|
  {
    if a == [] {
      assert a + b == b;
    } else {
      assert (a + b)[0] == a[0];
      assert (a + b)[1..] == a[1..] + b;
      ServeConcat(Handle(table, a[0]).table, a[1..], b);
    }
  }

  /** `req` binds `token`: a create for it whose put succeeds. */
  predicate Binds(req: Request, token: string)
  {
    req.Shorten? && req.token == token && !req.putFails
  }

  /** Calls that never bind `token` leave what it resolves to as it was. */
  lemma {:induction false} UnboundTokenKeepsResolution(table: Table, reqs: seq<Request>, token: string)
    requires forall i :: 0 <= i < |reqs| ==> !Binds(reqs[i], token)
    ensures GetOriginalUrl(Serve(table, reqs).table, token, false) == GetOriginalUrl(table, token, false)
    decreases |reqs|
  {
    if reqs != [] {
      assert !Binds(reqs[0], token);
      UnboundTokenKeepsResolution(Handle(table, reqs[0]).table, reqs[1..], token);
    }
  }

  /** Last writer wins: after a batch of calls, a successful read of an id
      returns the URL of the latest create that bound it. */
  lemma LatestBindingWins(table: Table, reqs: seq<Request>, i: nat)
    requires i < |reqs| && reqs[i].Shorten? && !reqs[i].putFails
    requires forall j :: i < j < |reqs| ==> !Binds(reqs[j], reqs[i].token)
    ensures GetOriginalUrl(Serve(table, reqs).table, reqs[i].token, false) == Ok(reqs[i].originalUrl)
  {
    var token := reqs[i].token;
    var before, after := reqs[..i + 1], reqs[i + 1..];
    assert reqs == before + after;
    ServeConcat(table, before, after);
    assert before == reqs[..i] + [reqs[i]];
    ServeConcat(table, reqs[..i], [reqs[i]]);
    var mid := Serve(Serve(table, reqs[..i]).table, [reqs[i]]).table;
    assert GetOriginalUrl(mid, token, false) == Ok(reqs[i].originalUrl);
    UnboundTokenKeepsResolution(mid, after, token);
  }

  /** Resolving never changes the table, and each resolution reports what
      the table held: two resolutions of one id, with the same read outcome,
      give the same answer. */
  lemma {:induction false} ResolvesAreReadOnly(table: Table, reqs: seq<Request>)
    requires forall i :: 0 <= i < |reqs| ==> reqs[i].Resolve?
    ensures Serve(table, reqs).table == table
    ensures forall i :: 0 <= i < |reqs| ==>
              Serve(table, reqs).responses[i] ==
                Resolved(GetOriginalUrl(table, reqs[i].token, reqs[i].getFails))
    decreases |reqs|
  {
    if reqs != [] {
      assert reqs[0].Resolve?;
      ResolvesAreReadOnly(table, reqs[1..]);
    }
  }
}

=== FILE: wrappers.dfy ===
/** Failure-carrying values shared by the rest of the model: a JavaScript
    promise that rejects becomes an `Err`, a lookup that finds nothing a `None`. */
module Wrappers {

  datatype Option<+T> = None | Some(value: T)

  datatype Result<+T, +E> = Ok(value: T) | Err(error: E)
}
